=== FILE: README.md ===
# MitsubishiRx transport core in Dafny

This project models the core of the MitsubishiRx client library. The library
talks to a Mitsubishi PLC over TCP. The model covers two parts of it.

- **Results.** The `Responce` result object that every operation returns
  instead of throwing. It has a success flag, the last error text, an error
  code, the exception, a history of error texts that never holds the same
  entry twice, and the time the operation took. The model covers the `Err`
  setter, `AddErr2List`, `SetErrInfo` and `EndTime`, plus the typed subclass
  and its constructor from a plain result.
- **Transport.** The part of `MitsubishiRx` that uses the socket:
  - the exact-read loop `SocketRead`, which asks for at most 4096 bytes per
    receive;
  - `Connect`, which reports every failure with code 408;
  - `Open` and `Close`, which toggle the auto-open flag;
  - the three request/response exchanges with their retry policies:
    - `SendPackageSingle` reads a 9-byte header, then the body whose length
      is in header bytes 7 and 8;
    - `SendPackage` reads a fixed byte count and reconnects on failure;
    - `SendPackageReliable` is `SendPackageSingle` plus one reconnect.

The C# class mutates itself in place. Here every mutation is a pure
function from the old value to the new one.

The socket is abstract. It takes a script as input:
- the events the next receives will meet: data, a zero-byte receive that
  reports the peer closed, or a socket fault;
- the outcome of each send;
- the outcome of each future connect attempt (accept, no answer, or refuse),
  held by the client.

An exhausted receive script stands for a receive that times out, and an
exhausted connect script for a connect that gets no answer in time. For
the timeout values .NET reads as an unbounded wait, see "Left out". The clock is a parameter `now`, in
milliseconds, and one operation reads it once.

Each operation is paired with a reference or an invariant:
- `SocketRead`, a loop method, is proved to compute `ReadSpec`.
- `ReadSpec` is proved to agree with a chunk-free stream view
  (`Available`, `StopOf`) of what the peer delivers.
- The exchanges are described in the same stream terms.
- The retry behaviour is described by a log of attempts and reconnects.

Files:
- `common.dfy`: null references, bytes, integer formatting.
- `faults.dfy`: socket faults and the exceptions the core meets.
- `errlist.dfy`: the deduplicated history.
- `responce.dfy`: the result objects.
- `sockets.dfy`: the scripted socket and the stream reference.
- `exactread.dfy`: `SocketRead`.
- `transport.dfy`: the client, connecting, and the exchanges.

Notes on the code's behaviour:
- **Connect error code.** `Connect` reports code 408 for every failure: a
  timeout, a refused connection and a rejected timeout value alike
  (MitsubishiRx.cs:322-329).
- **Reconnect history.** When a reconnect fails, the result is built from
  the connect result alone (MitsubishiRx.cs:156, 170, 193, 209). The history
  does not carry the original failure together with the reconnect failure.
- **Exceptions escape SendPackage.** An exception from the retry in the
  catch block is not caught (MitsubishiRx.cs:173), so `SendPackage` can
  throw.
- **Retry bound.** The retry at MitsubishiRx.cs:159 sits inside the try
  block, so one call of `SendPackage` can reconnect twice (see Findings).
- **Exception not kept.** The catch block of `SendPackageSingle` records
  only the message, not the exception (MitsubishiRx.cs:110-116).
- **Missing time stamps.** The failed results of `SocketRead` and the result
  of `DisposeSocket` are never time-stamped (MitsubishiRx.cs:260, 277, 297,
  344).
- **First exchange on a new client.** On a client that has never connected,
  the first exchange hits a null socket. `SendPackage` reaches its catch
  block and reconnects. `SendPackageSingle` reports the failure, and
  `SendPackageReliable` then reconnects.
- **`_isAutoOpen` is never read.** `Open` and `Close` set it, but nothing
  reads it (MitsubishiRx.cs:19, 63, 73). No operation opens the connection
  on demand other than through the reconnect-on-failure paths.

## Model

| member | source | states |
|---|---|---|
| Common.NatToString | src/MitsubishiRx/MitsubishiRx.cs:258 | the decimal text of a natural number is non-empty, all digits, has no leading zero, and reads back as the number |
| Common.IntToString | src/MitsubishiRx/MitsubishiRx.cs:258 | the interpolated read length is non-empty and starts with a minus sign exactly when it is negative |
| Common.IntToStringValue | src/MitsubishiRx/MitsubishiRx.cs:258 | the text of a non-negative number reads back as the number; the text of a negative number is a minus sign followed by the digits of its absolute value |
| ErrList.AddAbsent | src/MitsubishiRx/Responce.cs:141-144 | appending keeps the old history as a prefix, contains the entry afterwards, adds nothing else, changes nothing when the entry is present, and keeps the history free of repeats |
| ErrList.Merge | src/MitsubishiRx/Responce.cs:125-131 | merging another history keeps the old one as a prefix, ends up holding exactly the entries of both, and keeps it free of repeats |
| ErrList.MergePresent | src/MitsubishiRx/Responce.cs:125-131 | merging entries that are all present already leaves the history unchanged |
| ErrList.MergeFresh | src/MitsubishiRx/Responce.cs:125-131 | merging distinct entries none of which is present appends them in their order |
| Results.New | src/MitsubishiRx/Responce.cs:19-107 | a new result is successful, has no error text, code 0, no exception, an empty history, starts at the given time and has no elapsed time |
| Results.AddErr2List | src/MitsubishiRx/Responce.cs:139-145 | afterwards the current error text is in the history; the old history is a prefix; no other entry is added; nothing but the history changes; no repeats are introduced |
| Results.AddErr2ListIdempotent | src/MitsubishiRx/Responce.cs:139-145 | a second AddErr2List changes nothing |
| Results.SetErr | src/MitsubishiRx/Responce.cs:27-35 | setting Err stores the text and appends it to the history exactly when it was absent; nothing else changes |
| Results.MarkFailed | src/MitsubishiRx/MitsubishiRx.cs:256-259 | the failure pattern clears the success flag, sets the text, and adds only that text to the history |
| Results.SetErrInfo | src/MitsubishiRx/Responce.cs:114-134 | a null argument changes nothing; otherwise status, text, code and exception are copied; the old history stays a prefix; the other text and every entry of the other history are present, and nothing else is added; timing is untouched; no repeats |
| Results.SetErrInfoIdempotent | src/MitsubishiRx/Responce.cs:114-134 | merging the same result twice is the same as merging it once |
| Results.EndTime | src/MitsubishiRx/Responce.cs:147-151 | the elapsed time is the clock minus the start time, and nothing else changes |
| Results.NewReply | src/MitsubishiRx/MitsubishiRx.cs:254 | `new Responce<byte[]>()` (the parameterless constructor, Responce{T}.cs lines 15-17): a new typed result is successful and carries no value, no error text, code 0, no exception and an empty history, starts at the given time and has no elapsed time |
| Results.TypedEndTime | src/MitsubishiRx/MitsubishiRx.cs:302 | `result.EndTime()` on a typed result (Responce{T}.cs lines 79-83): the typed EndTime stamps the elapsed time since the start on the base result and keeps the value and every other field |
| Results.FromResponce | src/MitsubishiRx/MitsubishiRx.cs:154-157 | the typed result built from a failed connect result (the constructor and its Assignment helper, Responce{T}.cs lines 29-37 and 85-102) copies status, text, code, exception and start time, stamps the elapsed time, starts its history with the copied text, and holds exactly the text and the entries of the other history, without repeats |
| Results.FromResponceKeepsHistory | src/MitsubishiRx/MitsubishiRx.cs:154-157 | when the other history already starts with the copied text and has no repeats, the typed result takes it over unchanged |
| Sockets.SafeClose | src/MitsubishiRx/Mixins.cs:10-30 | closing never fails and leaves the socket closed and not connected |
| Sockets.Receive | src/MitsubishiRx/MitsubishiRx.cs:270 | a receive returns at most the requested size, throws only socket faults on an open socket, and throws the disposed-object fault on a closed one |
| Sockets.Send | src/MitsubishiRx/MitsubishiRx.cs:89 | a send throws exactly when the socket is null, closed or rejects it; a null socket throws a null-reference fault; a send that goes through transmits the whole command |
| Sockets.Take | src/MitsubishiRx/MitsubishiRx.cs:263-299 | the event-by-event reference of an exact read: when it fills, it yields exactly n bytes |
| Sockets.TakeAvailable | src/MitsubishiRx/MitsubishiRx.cs:263-299 | an exact read of n bytes fills exactly when the peer delivers at least n bytes before the stream stops; it then yields the first n and leaves the rest; otherwise it stops for the reason the stream stops |
| Sockets.ReceiveStep | src/MitsubishiRx/MitsubishiRx.cs:270-280 | one receive of at most the missing size is a step of the exact read: its bytes come first, and a zero-byte receive or a fault is where the read stops |
| ExactRead.StopMessage | src/MitsubishiRx/MitsubishiRx.cs:275-291 | the failure text of a stopped read is non-empty; a socket fault's text ends with the fault's message and starts as the timeout text exactly when the fault is a timeout; a zero-byte receive's text is neither of the two fault texts |
| ExactRead.StopMessageDistinguishes | src/MitsubishiRx/MitsubishiRx.cs:275-291 | equal failure texts come from the same kind of stop, and for faults from the same timeout/other class with the same message |
| ExactRead.StopReply | src/MitsubishiRx/MitsubishiRx.cs:271-297 | a read that stops yields a failed result carrying the text for the stop reason; a socket fault becomes the exception, a zero-byte receive keeps the exception as it was; no elapsed time is stamped |
| ExactRead.ReadSpec | src/MitsubishiRx/MitsubishiRx.cs:252-303 | a negative length fails with "Read length : n" before any I/O; length 0 succeeds with no bytes; a closed socket throws; a successful read returns exactly n bytes; a failed read closes the socket; nothing is sent |
| ExactRead.ReadSpecStream | src/MitsubishiRx/MitsubishiRx.cs:252-303 | on an open socket a read of n bytes succeeds exactly when the peer delivers n bytes, and then returns the first n of the stream and leaves the rest; otherwise its text names why the stream stopped, its exception is the socket fault when there was one and none otherwise, and no elapsed time is stamped |
| ExactRead.RequestsAppend | src/MitsubishiRx/MitsubishiRx.cs:265-267 | the next request of the loop, min(missing, 4096) bytes at the current offset, keeps the request list well formed, and the list then ends at the current offset plus the bytes that request returned |
| ExactRead.LoopAdvances | src/MitsubishiRx/MitsubishiRx.cs:270-280 | a receive that returns bytes moves the loop's buffer and script forward without changing what the whole read yields |
| ExactRead.LoopStops | src/MitsubishiRx/MitsubishiRx.cs:271-298 | a zero-byte receive or a socket fault in the loop is exactly where the reference read stops |
| ExactRead.Splice | src/MitsubishiRx/MitsubishiRx.cs:270 | receiving into the buffer at an offset keeps its length and puts the chunk after the bytes already read |
| ExactRead.ReceiveLoop | src/MitsubishiRx/MitsubishiRx.cs:263-299 | the loop ends where the reference read ends, on the same socket; only a closed socket makes an exception escape; every request asks for min(missing, 4096) bytes, the first at offset 0 and each next one at the previous offset plus the bytes the previous one returned; a full buffer is reached exactly at the end of the last request |
| ExactRead.SocketRead | src/MitsubishiRx/MitsubishiRx.cs:252-303 | the method computes ReadSpec, makes no request for a length of zero or less, its requests are well sized and each starts where the previous one's bytes end, and a successful read's last request ends at the requested length |
| Transport.Connected | src/MitsubishiRx/MitsubishiRx.cs:55 | a client without a socket is not connected, and a connected client's socket reports connected |
| Transport.Create | src/MitsubishiRx/MitsubishiRx.cs:29-39 | a new client has no socket, is not connected, and has auto-open set |
| Transport.ConnectFailed | src/MitsubishiRx/MitsubishiRx.cs:322-331 | a failed connect reports code 408, the exception and its message, holds only that message in the history, and leaves a closed socket |
| Transport.Connect | src/MitsubishiRx/MitsubishiRx.cs:305-332 | the old socket is closed and released; connecting succeeds exactly when the timeout is valid and the next peer accepts, and exactly when the client is then connected; success gives a fresh socket on that peer's script and a clean result; failure gives code 408 and a closed socket |
| Transport.Open | src/MitsubishiRx/MitsubishiRx.cs:61-65 | clears auto-open and connects; it succeeds exactly when the client is then connected |
| Transport.Close | src/MitsubishiRx/MitsubishiRx.cs:71-75 | sets auto-open, closes the socket but keeps it in the field, is never connected afterwards, and returns a fresh successful result |
| Transport.CloseIdempotent | src/MitsubishiRx/MitsubishiRx.cs:71-75 | closing a closed client changes nothing and succeeds |
| Transport.Caught | src/MitsubishiRx/MitsubishiRx.cs:110-116 | the catch block fails with the exception's message and does not record the exception |
| Transport.ContentLength | src/MitsubishiRx/MitsubishiRx.cs:98 | the body length read from a header is an unsigned 16-bit value |
| Transport.ContentLengthRoundTrip | src/MitsubishiRx/MitsubishiRx.cs:98 | a 16-bit length written low byte first into bytes 7 and 8 reads back unchanged, and no other header byte affects the length |
| Transport.SendPackageSingle | src/MitsubishiRx/MitsubishiRx.cs:82-118 | never throws; a success carries a complete frame, a 9-byte header plus the body length it announces; a failure carries a text; the history has no repeats |
| Transport.SingleReadsFrame | src/MitsubishiRx/MitsubishiRx.cs:82-118 | succeeds exactly when the send goes through and the stream begins with a complete frame, and then returns that frame; when the send goes through but a read fails, the read's failure is returned as it is, with the stop's text and fault and no elapsed time; when the send fails, the result carries the send exception's message, no exception, and a stamped time |
| Transport.GetResponce | src/MitsubishiRx/MitsubishiRx.cs:128-145 | a success carries exactly receiveCount bytes; a failure carries a text; the client's peers, flags and timeout are untouched |
| Transport.GetResponceReads | src/MitsubishiRx/MitsubishiRx.cs:128-145 | throws exactly when the send fails; otherwise succeeds exactly when the count is non-negative and the peer delivers that many bytes, which it returns |
| Transport.ReconnectFailed | src/MitsubishiRx/MitsubishiRx.cs:156 | the result of a failed reconnect carries its code, text and exception and no value |
| Transport.Recover | src/MitsubishiRx/MitsubishiRx.cs:164-174 | the catch block reconnects once and, when that works, attempts once more; a failed reconnect yields code 408 and an unconnected client |
| Transport.RetryInTry | src/MitsubishiRx/MitsubishiRx.cs:150-173 | after a failed first attempt the code as written logs a reconnect, then possibly a retry, a second reconnect and a third attempt, and nothing else |
| Transport.SendPackage | src/MitsubishiRx/MitsubishiRx.cs:147-174 | as written: the log is one of the five prefixes of attempt, reconnect, attempt, reconnect, attempt; it stops after one attempt exactly when that attempt succeeds; a log that ends with a reconnect, first or second, means that reconnect failed: code 408 and an unconnected client; a success carries exactly receiveCount bytes |
| Transport.SendPackageAgrees | src/MitsubishiRx/MitsubishiRx.cs:147-174 | whenever the corrected exchange returns, the code as written returns the same exchange, with the same outcome, client and log |
| Transport.SendPackageOnce | src/MitsubishiRx/MitsubishiRx.cs:147-174 | corrected: the log is one attempt, an attempt and a reconnect, or attempt, reconnect, attempt; a first success is returned as is; a failed reconnect gives code 408; an exception escapes only from the retry |
| Transport.OnceRetry | src/MitsubishiRx/MitsubishiRx.cs:147-174 | after a failed first attempt the corrected exchange succeeds exactly when the next peer accepts, takes the command and delivers receiveCount bytes, which it returns; when that peer accepts and takes the command but the retry fails, the retry's own failure is returned: the stop text of the new stream, or the read-length text for a negative count |
| Transport.SendPackageReliable | src/MitsubishiRx/MitsubishiRx.cs:182-222 | never throws; the log is one attempt, an attempt and a reconnect, or attempt, reconnect, attempt; it stops after one attempt exactly when that attempt succeeds; a failed reconnect gives code 408; a success carries a complete frame |
| Transport.AtMostOneReconnect | src/MitsubishiRx/MitsubishiRx.cs:147-222 | the corrected SendPackage and SendPackageReliable make at most two attempts and one reconnect per call |
| Transport.ReliableRetry | src/MitsubishiRx/MitsubishiRx.cs:186-196 | after a failed first attempt the exchange succeeds exactly when the next peer accepts, takes the command and delivers a complete frame, which it returns; when that peer accepts and takes the command but the retry fails, the retry's own failure is returned, with the stop text of the new stream |
| Transport.ReconnectsReleaseSockets | src/MitsubishiRx/MitsubishiRx.cs:147-174 | on a client that holds a socket, the corrected SendPackage releases exactly one socket per reconnect in its log |
| Transport.ReliableReconnectsReleaseSockets | src/MitsubishiRx/MitsubishiRx.cs:182-222 | on a client that holds a socket, SendPackageReliable releases exactly one socket per reconnect in its log |
| Transport.FlakyPathFirstAttempt | src/MitsubishiRx/MitsubishiRx.cs:149-150 | when the socket takes the command but its peer delivers fewer bytes than asked, the first attempt returns a failure |
| Transport.FlakyPathRetry | src/MitsubishiRx/MitsubishiRx.cs:153-167 | on that path the reconnect succeeds, the retry throws because the new peer rejects the send, and the reconnect in the catch block succeeds on the second peer |
| Transport.FlakyPathAttemptsThrice | src/MitsubishiRx/MitsubishiRx.cs:147-174 | on that path the code as written makes three attempts and two reconnects, and succeeds exactly when the second peer takes the command and delivers enough bytes; the corrected version stops after two attempts and the exception escapes |
| Transport.FlakyClientOnPath | src/MitsubishiRx/MitsubishiRx.cs:147-174 | a concrete client asked for one byte is on that path |

## Left out

- **Endpoint.** Address parsing and DNS resolution in the constructor are
  left out; the endpoint is implicit in the connect script.
- **CpuType.** The controller-variant tag is stored by the constructor but
  no core code reads it.
- **Concurrency.** The lock in `SendPackageSingle` and `GetResponce` only
  serialises callers. The model is single-threaded.
- **Dispose.** `Dispose` and `Dispose(bool)` are lifetime management outside
  the exchanges.
- **Clock and units.** `DateTime.Now` and the `double` of milliseconds
  become the integer parameter `now`. One operation reads the clock once, so
  time that passes inside an operation is not modelled.
- **Request and response texts.** The `Request`, `Response`, `Request2` and
  `Response2` properties are never set by the core. The model does not
  carry them.
- **Socket creation.** The `new Socket(...)` in `Connect` is assumed not to
  fail. The model does not cover the failure of the socket constructor.
- **Null argument to the typed constructor.** The null-argument branch of
  `Responce<T>(Responce)` is never reached from the core, which always
  passes a connect result.
- **Typed SetErrInfo.** `Responce<T>.SetErrInfo` only forwards to the base
  version and is not used by the core.
- **Exception messages.** The runtime's message texts for the null-socket,
  disposed-socket and bad-timeout exceptions stand in for whatever the
  installed .NET version prints.
- **Connected property.** `Socket.Connected` is modelled as a flag:
  - set by a successful connect;
  - cleared by a close or a rejected send.

  The operating system's finer view of connection state is not modelled.
- **Short receives.** The rule that a receive never returns more than
  requested is part of the `Receive` function, not a checked assumption.
  This is how the .NET `Socket.Receive` behaves.
- **Byte order.** `BitConverter.ToUInt16` is modelled as little-endian,
  byte 7 low and byte 8 high. That is the byte order on every platform the
  library targets.
- **Object identity.** `EndTime` and `SetErrInfo` return `this`. The model
  returns the new value, so aliasing between a result and its copies is not
  modelled.
- **Mutable error list.** `ErrList` is a public mutable list, so a caller
  could add a repeated entry. The no-repeats invariant holds only for
  changes made through the class's own members.
- **Unbounded timeouts.** .NET reads a receive timeout of 0 or -1 as "wait
  forever", and `WaitOne(-1)` in `Connect` never returns false. On those
  values a real receive on an exhausted script, and a real connect to a
  peer that does not answer with timeout -1, block instead of failing. The
  model still lets them fail with a timeout, because a wait that never
  ends has no result to model.
- **Culture and platform texts.** `IntToString` writes the ASCII minus
  sign. .NET formats the interpolated read length with the current
  culture, and under some cultures the negative sign is a different
  character (U+2212 under sv-SE). The message of the receive-timeout fault
  is the Linux text for ETIMEDOUT; Windows words it differently.
- Transport.SendPackage: its own contract bounds the log by the five-call
  shape and does not give the outcome of each path. `SendPackageAgrees`
  transfers the full contract of the corrected `SendPackageOnce` to every
  path on which that one returns. On the path where the retry at line 159
  throws, its contract gives the log shape and, when the second reconnect
  fails, code 408 and an unconnected client. The outcome of the third
  attempt is stated only by `FlakyPathAttemptsThrice`, for a short first
  stream and a second peer that accepts.

## Findings

| source | as written | input that shows it | evidently intended | confidence | as-written member | corrected member |
|---|---|---|---|---|---|---|
| src/MitsubishiRx/MitsubishiRx.cs:147-174 | the retry at line 159 runs inside the try block, so an exception from it enters the catch block, which reconnects and attempts a third time | FlakyClient, asked for 1 byte: its peer has hung up, so the first read gets zero bytes; the first reconnect meets a peer that resets the connection on the next send; the second reconnect succeeds | one reconnect and one retry per call, with the retry outside the try block | not executed | Transport.FlakyPathAttemptsThrice | Transport.SendPackageOnce |

=== FILE: common.dfy ===
/** Values shared by every part of the model: references that may be null,
    bytes, and the decimal text of an int with an ASCII minus sign. */
module Common {

  /** A C# reference that may be null. */
  datatype Option<+T> = None | Some(value: T)

  newtype byte = x: int | 0 <= x < 256

  type Bytes = seq<byte>

  function Digit(d: nat): (c: char)
    requires d < 10
    ensures '0' <= c <= '9' && DigitValue(c) == d
  {
    (48 + d) as char
  }

  /** The value of a decimal digit character. */
  function DigitValue(c: char): nat
    requires '0' <= c <= '9'
  {
    c as nat - 48
  }

  /** The number a string of decimal digits denotes, most significant
      digit first; the reference for NatToString. */
  function DecimalValue(s: string): nat
    requires forall i :: 0 <= i < |s| ==> '0' <= s[i] <= '9'
    decreases |s|
  {
    if |s| == 0 then 0 else 10 * DecimalValue(s[..|s| - 1]) + DigitValue(s[|s| - 1])
  }

  /** The decimal digits of n, most significant first, without leading
      zeros. */
  function NatToString(n: nat): (s: string)
    ensures |s| >= 1
    ensures forall i :: 0 <= i < |s| ==> '0' <= s[i] <= '9'
    ensures DecimalValue(s) == n
    ensures |s| > 1 ==> s[0] != '0'
    decreases n
  {
    if n < 10 then [Digit(n)]
    else
      var prefix := NatToString(n / 10);
      var s := prefix + [Digit(n % 10)];
      assert s[..|s| - 1] == prefix;
      s
  }

  /** An int as decimal text: the ASCII minus sign exactly for a negative
      value, then the digits of its magnitude. This is how an interpolated
      string renders it under the invariant culture. */
  function IntToString(i: int): (s: string)
    ensures |s| >= 1
    ensures s[0] == '-' <==> i < 0
  {
    if i < 0 then "-" + NatToString(-i) else NatToString(i)
  }

  /** The rendered text denotes the value: its digits spell the magnitude
      and the sign is present exactly for a negative value. */
  lemma IntToStringValue(i: int)
    ensures i >= 0 ==> DecimalValue(IntToString(i)) == i
    ensures i < 0 ==> |IntToString(i)| >= 2 && DecimalValue(IntToString(i)[1..]) == -i
  {
  }
}

=== FILE: errlist.dfy ===
/** The error history of a result: an insertion-ordered list that never holds
    the same entry twice. */
module ErrList {

  predicate NoDup<T(==,!new)>(s: seq<T>)
  {
    forall i, j :: 0 <= i < j < |s| ==> s[i] != s[j]
  }

  /** Appends e unless it is already present. */
  function AddAbsent<T(==,!new)>(s: seq<T>, e: T): (r: seq<T>)
    ensures s <= r
    ensures e in r
    ensures forall x :: x in r <==> x in s || x == e
    ensures e in s ==> r == s
    ensures |r| <= |s| + 1
    ensures NoDup(s) ==> NoDup(r)
  {
    if e in s then s else s + [e]
  }

  /** Appends, in order, each entry of items that is not yet present. */
  function Merge<T(==,!new)>(s: seq<T>, items: seq<T>): (r: seq<T>)
    ensures s <= r
    ensures forall x :: x in r <==> x in s || x in items
    ensures NoDup(s) ==> NoDup(r)
    decreases |items|
  {
    if |items| == 0 then s else Merge(AddAbsent(s, items[0]), items[1..])
  }

  /** Merging entries that are all present already changes nothing. */
  lemma {:induction false} MergePresent<T(!new)>(s: seq<T>, items: seq<T>)
    requires forall x :: x in items ==> x in s
    ensures Merge(s, items) == s
    decreases |items|
  {
    if |items| > 0 {
      assert items[0] in items;
      forall x | x in items[1..] ensures x in s {
        assert x in items;
      }
      MergePresent(s, items[1..]);
    }
  }

  /** Merging entries that are all new and distinct appends them unchanged. */
  lemma {:induction false} MergeFresh<T(!new)>(s: seq<T>, items: seq<T>)
    requires NoDup(s + items)
    ensures Merge(s, items) == s + items
    decreases |items|
  {
    if |items| > 0 {
      var s' := s + [items[0]];
      assert (s + items)[|s|] == items[0];
      assert items[0] !in s by {
        forall i | 0 <= i < |s| ensures s[i] != items[0] {
          assert (s + items)[i] == s[i];
        }
      }
      assert AddAbsent(s, items[0]) == s';
      assert s' + items[1..] == s + items;
      MergeFresh(s', items[1..]);
    }
  }
}

=== FILE: exactread.dfy ===
/** SocketRead: reading exactly receiveCount bytes from the socket, in
    requests of at most BufferSize bytes, failing on a zero-byte receive or a
    socket fault. ReadSpec states the outcome over the whole script; the
    method SocketRead is the loop, proved to compute it. */
module ExactRead {
  import opened Common
  import opened Faults
  import opened Results
  import opened Sockets

  const BufferSize: nat := 4096

  /** One Socket.Receive call: the offset into the buffer, the number of
      bytes asked for, and the number it returned (0 for a zero-byte receive
      or a fault). */
  datatype Recv = Recv(offset: nat, size: nat, received: nat)

  function Min(a: int, b: int): int
  {
    if a <= b then a else b
  }

  /** The text that opens the message of a timed-out receive. */
  const TimedOutPrefix := "Connection timed out\U{FF1A}"

  /** The text that opens the message of any other receive fault. */
  const DroppedPrefix := "The connection dropped\U{FF0C}"

  /** The error text for each way a read can stop: a fixed text for a
      zero-byte receive, and for a fault a prefix that tells a timeout from
      anything else, followed by the fault's own message. */
  function StopMessage(stop: Stop): (m: string)
    ensures |m| > 0
    ensures stop.Faulted? ==>
      && |m| > |stop.fault.message|
      && m[|m| - |stop.fault.message|..] == stop.fault.message
    ensures stop.Faulted? ==> (m[0] == TimedOutPrefix[0] <==> stop.fault.code == TimedOut)
    ensures stop.ZeroRead? ==> m[0] != TimedOutPrefix[0] && m[0] != DroppedPrefix[0]
  {
    match stop
    case ZeroRead => "the connection dropped"
    case Faulted(f) =>
      if f.code == TimedOut then TimedOutPrefix + f.message
      else DroppedPrefix + f.message
  }

  /** The message determines why the read stopped: whether the peer closed,
      whether a fault was a timeout, and the fault's own message. */
  lemma StopMessageDistinguishes(a: Stop, b: Stop)
    requires StopMessage(a) == StopMessage(b)
    ensures a.ZeroRead? <==> b.ZeroRead?
    ensures a.Faulted? && b.Faulted? ==>
      && (a.fault.code == TimedOut <==> b.fault.code == TimedOut)
      && a.fault.message == b.fault.message
  {
    var m := StopMessage(a);
    if a.Faulted? && b.Faulted? {
      if a.fault.code == TimedOut {
        assert m[|TimedOutPrefix|..] == a.fault.message;
        assert m[|TimedOutPrefix|..] == b.fault.message;
      } else {
        assert m[|DroppedPrefix|..] == a.fault.message;
        assert m[|DroppedPrefix|..] == b.fault.message;
      }
    }
  }

  /** The failed result of a read that stopped; a socket fault is kept as the
      exception. */
  function StopReply(result: Reply, stop: Stop): (t: Reply)
    requires Valid(result.base)
    ensures !Ok(t) && t.base.err == Some(StopMessage(stop)) && Valid(t.base)
    ensures stop.Faulted? ==> t.base.exception == Some(SocketEx(stop.fault))
    ensures stop.ZeroRead? ==> t.base.exception == result.base.exception
    ensures t.base.timeConsuming == result.base.timeConsuming
    ensures t.value == result.value
  {
    var failed := MarkFailed(result.base, StopMessage(stop));
    match stop
    case ZeroRead => result.(base := failed)
    case Faulted(f) => result.(base := failed.(exception := Some(SocketEx(f))))
  }

  function ReadSpec(s: Socket, receiveCount: int, now: int): (r: (Outcome<Reply>, Socket))
    ensures r.0.Returned? ==> Valid(r.0.value.base)
    ensures r.0.Returned? && !Ok(r.0.value) ==> r.0.value.base.err.Some?
    ensures receiveCount < 0 ==>
      && r.1 == s && r.0.Returned? && !Ok(r.0.value)
      && r.0.value.base.err == Some("Read length : " + IntToString(receiveCount))
      && r.0.value.base.exception == None && r.0.value.base.timeConsuming == None
    ensures receiveCount == 0 ==> r.1 == s && r.0.Returned? && Ok(r.0.value) && r.0.value.value == Some([])
    ensures r.0.Threw? <==> receiveCount > 0 && s.disposed
    ensures r.0.Threw? ==> r.0.exn == DisposedSocket && r.1 == s
    ensures r.0.Returned? && Ok(r.0.value) ==>
      && r.0.value.value.Some? && |r.0.value.value.value| == receiveCount
      && r.1 == s.(inbox := r.1.inbox)
    ensures r.0.Returned? && !Ok(r.0.value) && receiveCount >= 0 ==> r.1.disposed && !r.1.connected
    ensures r.1.sent == s.sent && r.1.sends == s.sends
  {
    var result := NewReply(now);
    if receiveCount < 0 then
      (Returned(result.(base := MarkFailed(result.base, "Read length : " + IntToString(receiveCount)))), s)
    else if receiveCount == 0 then
      (Returned(TypedEndTime(result.(value := Some([])), now)), s)
    else if s.disposed then
      (Threw(DisposedSocket), s)
    else
      match Take(s.inbox, receiveCount)
      case Filled(bytes, rest) => (Returned(TypedEndTime(result.(value := Some(bytes)), now)), s.(inbox := rest))
      case Stopped(stop, rest) => (Returned(StopReply(result, stop)), SafeClose(s.(inbox := rest)))
  }

  /** On an open socket a read of n >= 0 bytes succeeds exactly when the peer
      makes n bytes available; it returns the first n of them and leaves the
      rest. Otherwise it fails with the message for the reason the stream
      stops, and the socket is closed. */
  lemma ReadSpecStream(s: Socket, n: int, now: int)
    requires n >= 0
    requires n == 0 || !s.disposed
    ensures ReadSpec(s, n, now).0.Returned?
    ensures Ok(ReadSpec(s, n, now).0.value) <==> n <= |Available(s.inbox)|
    ensures Ok(ReadSpec(s, n, now).0.value) ==>
      && ReadSpec(s, n, now).0.value.value == Some(Available(s.inbox)[..n])
      && Available(ReadSpec(s, n, now).1.inbox) == Available(s.inbox)[n..]
      && ReadSpec(s, n, now).1.disposed == s.disposed
      && StopOf(ReadSpec(s, n, now).1.inbox) == StopOf(s.inbox)
    ensures !Ok(ReadSpec(s, n, now).0.value) ==>
      && ReadSpec(s, n, now).0.value.base.err == Some(StopMessage(StopOf(s.inbox)))
      && ReadSpec(s, n, now).0.value.base.exception ==
           (if StopOf(s.inbox).Faulted? then Some(SocketEx(StopOf(s.inbox).fault)) else None)
      && ReadSpec(s, n, now).0.value.base.timeConsuming == None
  {
    TakeAvailable(s.inbox, n);
  }

  /** One request of an exact read of n bytes: it asks for the smaller of
      what is still missing and BufferSize, and does not reach past n. */
  predicate WellSized(call: Recv, n: int)
  {
    && 0 < call.size == Min(n - call.offset, BufferSize) && call.offset + call.size <= n
    && call.received <= call.size
  }

  /** The requests of an exact read of n bytes: each well sized; the first
      at offset 0, and each later one made only after its predecessor
      returned bytes, at the offset just past them. */
  predicate Requests(calls: seq<Recv>, n: int)
  {
    && (|calls| > 0 ==> calls[0].offset == 0)
    && (forall i :: 0 <= i < |calls| ==> WellSized(calls[i], n))
    && (forall i :: 0 <= i < |calls| - 1 ==> Follows(calls[i], calls[i + 1]))
  }

  /** next is made after prev returned bytes, at the offset just past them. */
  predicate Follows(prev: Recv, next: Recv)
  {
    prev.received > 0 && next.offset == prev.offset + prev.received
  }

  /** The offset just past the bytes the last request returned. */
  predicate EndsAt(calls: seq<Recv>, finish: nat)
  {
    |calls| > 0 ==> calls[|calls| - 1].offset + calls[|calls| - 1].received == finish
  }

  /** The loop's view of its requests after finish bytes: none yet at 0,
      and otherwise the last one returned bytes that end at finish. */
  predicate Progress(calls: seq<Recv>, finish: nat)
  {
    && (calls == [] <==> finish == 0)
    && (|calls| > 0 ==> calls[|calls| - 1].received > 0)
    && EndsAt(calls, finish)
  }

  lemma RequestsAppend(calls: seq<Recv>, n: int, finish: nat, size: nat, got: nat)
    requires Requests(calls, n) && Progress(calls, finish)
    requires finish < n && size == Min(n - finish, BufferSize) && got <= size
    ensures Requests(calls + [Recv(finish, size, got)], n)
    ensures EndsAt(calls + [Recv(finish, size, got)], finish + got)
    ensures got > 0 ==> Progress(calls + [Recv(finish, size, got)], finish + got)
  {
  }

  /** A receive that returns bytes moves the loop's invariant forward. */
  lemma LoopAdvances(inbox: seq<Event>, n: nat, buf: Bytes, finish: nat, s: Socket, size: nat)
    requires finish < n && 0 < size <= n - finish && |buf| == n && !s.disposed
    requires Take(inbox, n) == Prepend(buf[..finish], Take(s.inbox, n - finish))
    requires Receive(s, size).0.Returned? && |Receive(s, size).0.value| > 0
    ensures finish + |Receive(s, size).0.value| <= n
    ensures Take(inbox, n) == Prepend(
      Splice(buf, finish, Receive(s, size).0.value)[..finish + |Receive(s, size).0.value|],
      Take(Receive(s, size).1.inbox, n - finish - |Receive(s, size).0.value|))
  {
    var chunk := Receive(s, size).0.value;
    ReceiveStep(s, size, n - finish);
    PrependPrepend(buf[..finish], chunk, Take(Receive(s, size).1.inbox, n - finish - |chunk|));
  }

  /** A zero-byte receive or a socket fault is where Take stops. */
  lemma LoopStops(inbox: seq<Event>, n: nat, done: Bytes, s: Socket, size: nat)
    requires 0 < size <= n - |done| && !s.disposed
    requires Take(inbox, n) == Prepend(done, Take(s.inbox, n - |done|))
    requires Receive(s, size).0.Threw? || |Receive(s, size).0.value| == 0
    ensures Receive(s, size).0.Threw? ==>
      Take(inbox, n) == Stopped(Faulted(Receive(s, size).0.exn.fault), Receive(s, size).1.inbox)
    ensures Receive(s, size).0.Returned? ==> Take(inbox, n) == Stopped(ZeroRead, Receive(s, size).1.inbox)
  {
    ReceiveStep(s, size, n - |done|);
  }

  /** Writes chunk into buf at offset, as Socket.Receive writes into the
      caller's array. */
  function Splice(buf: Bytes, offset: nat, chunk: Bytes): (r: Bytes)
    requires offset + |chunk| <= |buf|
    ensures |r| == |buf|
    ensures r[..offset + |chunk|] == buf[..offset] + chunk
  {
    buf[..offset] + chunk + buf[offset + |chunk|..]
  }

  /** Where the receive loop ends: with the buffer full, at a zero-byte
      receive or socket fault, or with an exception SocketRead does not catch. */
  datatype LoopEnd = Finished(buffer: Bytes, socket: Socket) | Broke(stop: Stop, socket: Socket) | Escaped(exn: Exn)

  /** The loop ends where Take does, on the same socket with the rest of the
      script. */
  predicate EndsAsTake(socket: Socket, n: nat, end: LoopEnd)
  {
    match Take(socket.inbox, n)
    case Filled(bytes, rest) => end == Finished(bytes, socket.(inbox := rest))
    case Stopped(stop, rest) => end == Broke(stop, socket.(inbox := rest))
  }

  /** The receive loop of SocketRead: asks for the missing bytes in requests
      of at most BufferSize at a growing offset until the buffer is full.
      calls lists the Receive requests it made. */
  method ReceiveLoop(socket: Socket, receiveCount: nat) returns (end: LoopEnd, calls: seq<Recv>)
    ensures end.Escaped? <==> receiveCount > 0 && socket.disposed
    ensures end.Escaped? ==> end.exn == DisposedSocket
    ensures !end.Escaped? ==> EndsAsTake(socket, receiveCount, end)
    ensures receiveCount == 0 ==> calls == []
    ensures Requests(calls, receiveCount)
    ensures end.Finished? && receiveCount > 0 ==> |calls| > 0 && EndsAt(calls, receiveCount)
  {
    calls := [];
    var receiveBytes: Bytes := seq(receiveCount, _ => 0 as byte);
    var receiveFinish := 0;
    var s := socket;
    while receiveFinish < receiveCount
      invariant 0 <= receiveFinish <= receiveCount
      invariant |receiveBytes| == receiveCount
      invariant s == socket.(inbox := s.inbox)
      invariant Take(socket.inbox, receiveCount)
        == Prepend(receiveBytes[..receiveFinish], Take(s.inbox, receiveCount - receiveFinish))
      invariant receiveFinish > 0 ==> !socket.disposed
      invariant socket.disposed ==> s == socket
      invariant Requests(calls, receiveCount) && Progress(calls, receiveFinish)
      decreases receiveCount - receiveFinish
    {
      var receiveLength := if receiveCount - receiveFinish >= BufferSize then BufferSize else receiveCount - receiveFinish;
      var r := Receive(s, receiveLength);
      var got := if r.0.Returned? then |r.0.value| else 0;
      RequestsAppend(calls, receiveCount, receiveFinish, receiveLength, got);
      calls := calls + [Recv(receiveFinish, receiveLength, got)];
      if r.0.Threw? {
        if r.0.exn.SocketEx? {
          LoopStops(socket.inbox, receiveCount, receiveBytes[..receiveFinish], s, receiveLength);
          end := Broke(Faulted(r.0.exn.fault), r.1);
        } else {
          end := Escaped(r.0.exn);
        }
        return;
      }
      var chunk := r.0.value;
      if |chunk| == 0 {
        LoopStops(socket.inbox, receiveCount, receiveBytes[..receiveFinish], s, receiveLength);
        end := Broke(ZeroRead, r.1);
        return;
      }
      LoopAdvances(socket.inbox, receiveCount, receiveBytes, receiveFinish, s, receiveLength);
      receiveBytes := Splice(receiveBytes, receiveFinish, chunk);
      receiveFinish := receiveFinish + |chunk|;
      s := r.1;
    }
    assert receiveBytes[..receiveFinish] == receiveBytes;
    end := Finished(receiveBytes, s);
  }

  /** SocketRead: rejects a negative count before any receive, runs the
      receive loop, closes the socket when the loop breaks off, and reports
      the outcome as a result. */
  method SocketRead(socket: Socket, receiveCount: int, now: int)
    returns (out: Outcome<Reply>, socket': Socket, calls: seq<Recv>)
    ensures (out, socket') == ReadSpec(socket, receiveCount, now)
    ensures receiveCount <= 0 ==> calls == []
    ensures Requests(calls, receiveCount)
    ensures receiveCount > 0 && out.Returned? && Ok(out.value) ==> |calls| > 0 && EndsAt(calls, receiveCount)
  {
    var result := NewReply(now);
    if receiveCount < 0 {
      out := Returned(result.(base := MarkFailed(result.base, "Read length : " + IntToString(receiveCount))));
      socket' := socket;
      calls := [];
      return;
    }
    var end;
    end, calls := ReceiveLoop(socket, receiveCount);
    match end
    case Finished(buffer, s) =>
      out := Returned(TypedEndTime(result.(value := Some(buffer)), now));
      socket' := s;
    case Broke(stop, s) =>
      out := Returned(StopReply(result, stop));
      socket' := SafeClose(s);
    case Escaped(e) =>
      out := Threw(e);
      socket' := socket;
  }
}

=== FILE: faults.dfy ===
/** The faults the core meets: socket errors, the exceptions the .NET runtime
    raises on misuse of a socket, and the outcome of a call that may throw. */
module Faults {

  /** The SocketError codes the model tells apart; only TimedOut is treated
      specially by the core. */
  datatype SocketError = TimedOut | ConnectionReset | ConnectionRefused | OtherError

  /** A System.Net.Sockets.SocketException: its error code and message. */
  datatype SocketFault = SocketFault(code: SocketError, message: string)

  /** Every exception that can reach code of the core. */
  datatype Exn =
    | SocketEx(fault: SocketFault)   // a SocketException from connect, send or receive
    | ConnectTimeout                 // the TimeoutException thrown when the connect wait expires
    | NullSocket                     // the socket field used before the first Connect
    | DisposedSocket                 // a socket used after it was closed
    | BadTimeout                     // the socket timeout setters reject a value below -1

  /** The Message property of each exception. The runtime's own texts for the
      last three stand in for whatever the installed .NET version prints. */
  function Message(e: Exn): string
  {
    match e
    case SocketEx(f) => f.message
    case ConnectTimeout => "Connection timed out"
    case NullSocket => "Object reference not set to an instance of an object."
    case DisposedSocket => "Cannot access a disposed object."
    case BadTimeout => "Specified argument was out of the range of valid values."
  }

  /** The result of a call that may throw: the value it returned, or the
      exception that escapes it. */
  datatype Outcome<+T> = Returned(value: T) | Threw(exn: Exn)
}

=== FILE: responce.dfy ===
/** The result object every operation of the client returns instead of
    throwing: a success flag, the last error text, an error code, the
    exception behind it, the deduplicated history of error texts, and timing.
    The class mutates itself in place; here each mutation is a function from
    the old value to the new one. */
module Results {
  import opened Common
  import opened Faults
  import opened ErrList

  /** The error text and the history entries may be null, so both hold
      Option<string>. Times are milliseconds on an abstract clock. */
  datatype Responce = Responce(
    isSucceed: bool,
    err: Option<string>,
    errCode: int,
    exception: Option<Exn>,
    errList: seq<Option<string>>,
    initialTime: int,
    timeConsuming: Option<int>)

  /** The invariant every mutation of the class keeps: no repeated entry. */
  predicate Valid(r: Responce)
  {
    NoDup(r.errList)
  }

  /** A newly constructed result, created at time now. */
  function New(now: int): (r: Responce)
    ensures r.isSucceed && r.errList == []
    ensures r.err == None && r.exception == None && r.errCode == 0
    ensures r.initialTime == now && r.timeConsuming == None
    ensures Valid(r)
  {
    Responce(true, None, 0, None, [], now, None)
  }

  /** AddErr2List: records the current error text in the history unless the
      history already holds it. */
  function AddErr2List(r: Responce): (r': Responce)
    ensures r.err in r'.errList
    ensures r.errList <= r'.errList
    ensures forall x :: x in r'.errList <==> x in r.errList || x == r.err
    ensures Valid(r) ==> Valid(r')
    ensures r' == r.(errList := r'.errList)
  {
    r.(errList := AddAbsent(r.errList, r.err))
  }

  /** Calling AddErr2List a second time changes nothing. */
  lemma AddErr2ListIdempotent(r: Responce)
    ensures AddErr2List(AddErr2List(r)) == AddErr2List(r)
  {
  }

  /** The Err setter: stores the text and records it in the history. */
  function SetErr(r: Responce, e: Option<string>): (r': Responce)
    ensures r'.err == e
    ensures e in r'.errList
    ensures r.errList <= r'.errList
    ensures e in r.errList ==> r'.errList == r.errList
    ensures e !in r.errList ==> r'.errList == r.errList + [e]
    ensures Valid(r) ==> Valid(r')
    ensures r' == r.(err := e, errList := r'.errList)
  {
    AddErr2List(r.(err := e))
  }

  /** The failure pattern the client repeats: clear the success flag, set the
      error text, then call AddErr2List once more. */
  function MarkFailed(r: Responce, message: string): (r': Responce)
    ensures !r'.isSucceed && r'.err == Some(message)
    ensures Some(message) in r'.errList && r.errList <= r'.errList
    ensures forall x :: x in r'.errList <==> x in r.errList || x == Some(message)
    ensures Valid(r) ==> Valid(r')
    ensures r' == r.(isSucceed := false, err := Some(message), errList := r'.errList)
  {
    AddErr2List(SetErr(r.(isSucceed := false), Some(message)))
  }

  /** SetErrInfo: a null argument leaves the result alone; otherwise the
      status, text, code and exception are copied and the other history is
      merged in after the copied text. */
  function SetErrInfo(r: Responce, other: Option<Responce>): (r': Responce)
    ensures other.None? ==> r' == r
    ensures other.Some? ==>
      && r'.isSucceed == other.value.isSucceed
      && r'.err == other.value.err
      && r'.errCode == other.value.errCode
      && r'.exception == other.value.exception
    ensures r.errList <= r'.errList
    ensures other.Some? ==> other.value.err in r'.errList
    ensures other.Some? ==> forall x :: x in other.value.errList ==> x in r'.errList
    ensures forall x :: x in r'.errList ==>
      x in r.errList || (other.Some? && (x == other.value.err || x in other.value.errList))
    ensures Valid(r) ==> Valid(r')
    ensures r'.initialTime == r.initialTime && r'.timeConsuming == r.timeConsuming
  {
    match other
    case None => r
    case Some(o) =>
      var r1 := SetErr(r.(isSucceed := o.isSucceed), o.err);
      r1.(errCode := o.errCode, exception := o.exception, errList := Merge(r1.errList, o.errList))
  }

  /** Merging the same result a second time changes nothing. */
  lemma SetErrInfoIdempotent(r: Responce, other: Option<Responce>)
    ensures SetErrInfo(SetErrInfo(r, other), other) == SetErrInfo(r, other)
  {
    if other.Some? {
      var once := SetErrInfo(r, other);
      MergePresent(once.errList, other.value.errList);
    }
  }

  /** EndTime: stamps the elapsed time since the result was created; nothing
      else changes. */
  function EndTime(r: Responce, now: int): (r': Responce)
    ensures r'.timeConsuming.Some? && r.initialTime + r'.timeConsuming.value == now
    ensures r'.(timeConsuming := r.timeConsuming) == r
  {
    r.(timeConsuming := Some(now - r.initialTime))
  }

  /** A result that carries a value on success (the generic subclass). */
  datatype Typed<T> = Typed(base: Responce, value: Option<T>)

  predicate Ok<T>(t: Typed<T>)
  {
    t.base.isSucceed
  }

  /** The typed result the core uses: one that carries bytes. */
  type Reply = Typed<Bytes>

  /** A new typed result: successful, with no value yet. */
  function NewReply(now: int): (t: Reply)
    ensures Ok(t) && t.value == None
    ensures t.base.err == None && t.base.errCode == 0 && t.base.exception == None && t.base.errList == []
    ensures t.base.initialTime == now && t.base.timeConsuming == None
  {
    Typed(New(now), None)
  }

  /** The typed EndTime: stamps the elapsed time on the base result and
      keeps the value and every other field. */
  function TypedEndTime(t: Reply, now: int): (r: Reply)
    ensures r.value == t.value
    ensures r.base.timeConsuming.Some? && t.base.initialTime + r.base.timeConsuming.value == now
    ensures r.base.(timeConsuming := t.base.timeConsuming) == t.base
  {
    t.(base := EndTime(t.base, now))
  }

  /** The constructor that builds a typed result from a plain one, at time
      now: it copies status, start time, text, exception and code, stamps the
      elapsed time, then merges the other history after the copied text. */
  function FromResponce(result: Responce, now: int): (t: Reply)
    ensures t.value == None
    ensures t.base.isSucceed == result.isSucceed && t.base.err == result.err
    ensures t.base.errCode == result.errCode && t.base.exception == result.exception
    ensures t.base.initialTime == result.initialTime
    ensures t.base.timeConsuming == Some(now - result.initialTime)
    ensures Valid(t.base)
    ensures |t.base.errList| > 0 && t.base.errList[0] == result.err
    ensures forall x :: x in t.base.errList <==> x == result.err || x in result.errList
  {
    var blank := NewReply(now);
    var b := SetErr(blank.base.(isSucceed := result.isSucceed, initialTime := result.initialTime), result.err);
    var b' := EndTime(b.(exception := result.exception, errCode := result.errCode), now);
    assert b'.errList == [result.err];
    var t := Typed(b'.(errList := Merge(b'.errList, result.errList)), None);
    assert t.base.errList[0] == result.err by {
      assert [result.err] <= t.base.errList;
    }
    t
  }

  /** A history that already starts with the copied text and holds no
      repeats is taken over unchanged. */
  lemma FromResponceKeepsHistory(result: Responce, now: int)
    requires Valid(result) && |result.errList| > 0 && result.errList[0] == result.err
    ensures FromResponce(result, now).base.errList == result.errList
  {
    var e := result.err;
    assert FromResponce(result, now).base.errList == Merge([e], result.errList) by {
      assert AddAbsent([], e) == [e];
    }
    assert result.errList == [e] + result.errList[1..];
    assert Merge([e], result.errList) == Merge([e], result.errList[1..]) by {
      assert AddAbsent([e], result.errList[0]) == [e];
    }
    MergeFresh([e], result.errList[1..]);
  }
}

=== FILE: sockets.dfy ===
/** An abstract TCP socket. What the peer does is a script supplied as input:
    the events a receive will meet, in order, and the outcome of each send.
    The operating system's socket is not modelled beyond this. */
module Sockets {
  import opened Common
  import opened Faults

  /** One thing a receive can meet. Data([]) is the zero-byte receive that
      reports a peer which closed the connection; Error(f) is a receive that
      throws a SocketException. */
  datatype Event = Data(bytes: Bytes) | Error(fault: SocketFault)

  datatype SendOutcome = Delivered | Rejected(fault: SocketFault)

  /** A socket: whether it reports itself connected, whether it was closed,
      the events still to come from the peer, the outcomes of future sends
      (an exhausted list means every send succeeds), and what was sent. */
  datatype Socket = Socket(
    connected: bool,
    disposed: bool,
    inbox: seq<Event>,
    sends: seq<SendOutcome>,
    sent: seq<Bytes>)

  /** A receive with nothing left in the script waits out the receive
      timeout. The message is the text Linux gives for ETIMEDOUT. */
  const ReceiveTimeoutFault := SocketFault(TimedOut, "Connection timed out")

  /** SafeClose: shut down and close, swallowing every fault. It only ever
      leaves the socket closed. */
  function SafeClose(s: Socket): (s': Socket)
    ensures s'.disposed && !s'.connected
    ensures s'.inbox == s.inbox && s'.sent == s.sent
  {
    s.(connected := false, disposed := true)
  }

  /** Socket.Receive asking for at most size bytes. */
  function Receive(s: Socket, size: nat): (r: (Outcome<Bytes>, Socket))
    requires 0 < size
    ensures r.0.Returned? ==> |r.0.value| <= size
    ensures r.1 == s.(inbox := r.1.inbox)
    ensures s.disposed ==> r == (Threw(DisposedSocket), s)
    ensures r.0.Threw? && !s.disposed ==> r.0.exn.SocketEx?
  {
    if s.disposed then (Threw(DisposedSocket), s)
    else if |s.inbox| == 0 then (Threw(SocketEx(ReceiveTimeoutFault)), s)
    else match s.inbox[0]
      case Error(f) => (Threw(SocketEx(f)), s.(inbox := s.inbox[1..]))
      case Data(b) =>
        if |b| <= size then (Returned(b), s.(inbox := s.inbox[1..]))
        else (Returned(b[..size]), s.(inbox := [Data(b[size..])] + s.inbox[1..]))
  }

  /** Socket.Send on the socket field, which may be null. A send that
      succeeds transmits the whole command. */
  function Send(socket: Option<Socket>, command: Bytes): (r: (Option<Exn>, Option<Socket>))
    ensures r.0.None? <==> SendSucceeds(socket)
    ensures r.0.None? ==> r.1.Some? && r.1.value.sent == socket.value.sent + [command]
    ensures r.1.Some? <==> socket.Some?
    ensures r.1.Some? ==> r.1.value.inbox == socket.value.inbox
    ensures r.1.Some? ==> r.1.value.disposed == socket.value.disposed
    ensures socket.None? ==> r == (Some(NullSocket), None)
  {
    match socket
    case None => (Some(NullSocket), None)
    case Some(s) =>
      if s.disposed then (Some(DisposedSocket), socket)
      else if |s.sends| == 0 then (None, Some(s.(sent := s.sent + [command])))
      else match s.sends[0]
        case Delivered => (None, Some(s.(sends := s.sends[1..], sent := s.sent + [command])))
        case Rejected(f) => (Some(SocketEx(f)), Some(s.(sends := s.sends[1..], connected := false)))
  }

  predicate SendSucceeds(socket: Option<Socket>)
  {
    && socket.Some?
    && !socket.value.disposed
    && (|socket.value.sends| == 0 || socket.value.sends[0].Delivered?)
  }

  // ---- The stream view: a reference for what exact reads can obtain ----

  /** The bytes the peer delivers before the stream stops. */
  function Available(inbox: seq<Event>): Bytes
    decreases |inbox|
  {
    if |inbox| == 0 then []
    else match inbox[0]
      case Error(_) => []
      case Data(b) => if |b| == 0 then [] else b + Available(inbox[1..])
  }

  /** Why a reader that wants more than the available bytes stops. */
  datatype Stop = ZeroRead | Faulted(fault: SocketFault)

  function StopOf(inbox: seq<Event>): Stop
    decreases |inbox|
  {
    if |inbox| == 0 then Faulted(ReceiveTimeoutFault)
    else match inbox[0]
      case Error(f) => Faulted(f)
      case Data(b) => if |b| == 0 then ZeroRead else StopOf(inbox[1..])
  }

  /** Taking n bytes from the script either fills them, leaving the rest of
      the script, or stops, having consumed the event that stopped it. */
  datatype Taken = Filled(bytes: Bytes, rest: seq<Event>) | Stopped(stop: Stop, rest: seq<Event>)

  function Prepend(b: Bytes, t: Taken): Taken
  {
    match t
    case Filled(x, rest) => Filled(b + x, rest)
    case Stopped(_, _) => t
  }

  /** Event-by-event reference for reading exactly n bytes, with no notion of
      chunk size or buffer offset. */
  function Take(inbox: seq<Event>, n: nat): (t: Taken)
    ensures t.Filled? ==> |t.bytes| == n
    decreases |inbox|
  {
    if n == 0 then Filled([], inbox)
    else if |inbox| == 0 then Stopped(Faulted(ReceiveTimeoutFault), inbox)
    else match inbox[0]
      case Error(f) => Stopped(Faulted(f), inbox[1..])
      case Data(b) =>
        if |b| == 0 then Stopped(ZeroRead, inbox[1..])
        else if n < |b| then Filled(b[..n], [Data(b[n..])] + inbox[1..])
        else Prepend(b, Take(inbox[1..], n - |b|))
  }

  /** Take fills n bytes exactly when that many are available; it then
      yields the first n of them and leaves the remainder; otherwise it stops
      for the reason the stream stops. */
  lemma {:induction false} TakeAvailable(inbox: seq<Event>, n: nat)
    ensures Take(inbox, n).Filled? <==> n <= |Available(inbox)|
    ensures Take(inbox, n).Filled? ==>
      && Take(inbox, n).bytes == Available(inbox)[..n]
      && Available(Take(inbox, n).rest) == Available(inbox)[n..]
      && StopOf(Take(inbox, n).rest) == StopOf(inbox)
    ensures Take(inbox, n).Stopped? ==> Take(inbox, n).stop == StopOf(inbox)
    decreases |inbox|
  {
    if n == 0 || |inbox| == 0 {
    } else {
      match inbox[0]
      case Error(f) =>
      case Data(b) =>
        var tail := inbox[1..];
        if |b| == 0 {
        } else if n < |b| {
          var rest := [Data(b[n..])] + tail;
          assert rest[1..] == tail;
          assert Available(rest) == b[n..] + Available(tail);
          assert (b + Available(tail))[..n] == b[..n];
          assert (b + Available(tail))[n..] == b[n..] + Available(tail);
        } else {
          TakeAvailable(tail, n - |b|);
          var a := Available(tail);
          assert Available(inbox) == b + a;
          if Take(tail, n - |b|).Filled? {
            assert (b + a)[..n] == b + a[..n - |b|];
            assert (b + a)[n..] == a[n - |b|..];
          }
        }
    }
  }

  lemma PrependPrepend(a: Bytes, b: Bytes, t: Taken)
    ensures Prepend(a, Prepend(b, t)) == Prepend(a + b, t)
  {
    if t.Filled? {
      assert a + (b + t.bytes) == (a + b) + t.bytes;
    }
  }

  /** One receive of at most size bytes is a step of Take: the bytes it
      returns come first, and Take of the remaining script supplies the rest.
      A zero-byte receive or a fault is where Take stops. */
  lemma ReceiveStep(s: Socket, size: nat, m: nat)
    requires 0 < size <= m
    requires !s.disposed
    ensures Receive(s, size).0.Returned? && |Receive(s, size).0.value| > 0 ==>
      Take(s.inbox, m) == Prepend(Receive(s, size).0.value, Take(Receive(s, size).1.inbox, m - |Receive(s, size).0.value|))
    ensures Receive(s, size).0.Returned? && |Receive(s, size).0.value| == 0 ==>
      Take(s.inbox, m) == Stopped(ZeroRead, Receive(s, size).1.inbox)
    ensures Receive(s, size).0.Threw? ==>
      Take(s.inbox, m) == Stopped(Faulted(Receive(s, size).0.exn.fault), Receive(s, size).1.inbox)
  {
    if |s.inbox| > 0 && s.inbox[0].Data? {
      var b := s.inbox[0].bytes;
      var tail := s.inbox[1..];
      if 0 < |b| && size < |b| {
        var rest := [Data(b[size..])] + tail;
        assert rest[1..] == tail;
        if m < |b| {
          assert b[size..][..m - size] == b[size..m];
          assert b[..size] + b[size..m] == b[..m];
          assert b[size..][m - size..] == b[m..];
        } else {
          assert b[..size] + b[size..] == b;
          PrependPrepend(b[..size], b[size..], Take(tail, m - |b|));
        }
      }
    }
  }
}

=== FILE: transport.dfy ===
/** The client: one connection to one controller, opened explicitly or on
    demand, and the three request/response exchanges with their retry
    policies. The lock and the endpoint are not modelled; the outcome of each
    future connect attempt is part of the client's input. */
module Transport {
  import opened Common
  import opened Faults
  import opened Results
  import opened Sockets
  import opened ExactRead

  /** The error code every failed connect reports. */
  const ConnectErrCode := 408

  /** The fixed size of a response header. */
  const HeaderSize: nat := 9

  /** What the next connect attempt meets: a peer that accepts (and then
      behaves as scripted), no answer within the timeout, or a refusal. */
  datatype Peer = Accept(inbox: seq<Event>, sends: seq<SendOutcome>) | NoAnswer | Refuse(fault: SocketFault)

  /** The client: its socket field (null before the first connect), the
      auto-open flag, the timeout, the outcomes of future connect attempts
      (an exhausted list means no answer), and every socket it has let go. */
  datatype Client = Client(
    socket: Option<Socket>,
    isAutoOpen: bool,
    timeout: int,
    peers: seq<Peer>,
    released: seq<Socket>)

  /** The constructor, without address resolution. */
  function Create(timeout: int, peers: seq<Peer>): (c: Client)
    ensures !Connected(c) && c.isAutoOpen && c.socket.None?
    ensures c.timeout == timeout && c.peers == peers && c.released == []
  {
    Client(None, true, timeout, peers, [])
  }

  /** The Connected property: what the socket reports, and false while the
      field is still null. */
  predicate Connected(c: Client): (b: bool)
    ensures c.socket.None? ==> !b
    ensures b ==> c.socket.value.connected
  {
    c.socket.Some? && c.socket.value.connected
  }

  /** The client's surroundings that an exchange attempt leaves alone. */
  predicate SameSetting(c: Client, c': Client)
  {
    c'.peers == c.peers && c'.released == c.released && c'.isAutoOpen == c.isAutoOpen && c'.timeout == c.timeout
  }

  function Released(socket: Option<Socket>): seq<Socket>
  {
    if socket.Some? then [SafeClose(socket.value)] else []
  }

  /** A socket created but never connected. */
  const Unconnected := Socket(false, false, [], [], [])

  /** The catch block of Connect: every failure is reported with code 408
      and the new socket is closed. */
  function ConnectFailed(result: Responce, e: Exn, c: Client, now: int): (r: (Responce, Client))
    requires Valid(result) && result.errList == []
    ensures !r.0.isSucceed && r.0.errCode == ConnectErrCode && r.0.exception == Some(e)
    ensures r.0.err == Some(Message(e)) && r.0.errList == [r.0.err]
    ensures r.1 == c.(socket := Some(SafeClose(Unconnected)))
  {
    var failed := SetErr(result.(isSucceed := false), Some(Message(e)));
    (EndTime(failed.(errCode := ConnectErrCode, exception := Some(e)), now), c.(socket := Some(SafeClose(Unconnected))))
  }

  /** Connect: closes the previous socket, then connects a new one, waiting
      at most the timeout. */
  function Connect(c: Client, now: int): (r: (Responce, Client))
    ensures Valid(r.0) && r.1.socket.Some?
    ensures r.0.isSucceed <==> c.timeout >= -1 && |c.peers| > 0 && c.peers[0].Accept?
    ensures r.0.isSucceed <==> Connected(r.1)
    ensures r.0.isSucceed ==>
      && r.0.errList == [] && r.0.err == None && r.0.errCode == 0 && r.0.exception == None
      && r.1.socket.value.inbox == c.peers[0].inbox && r.1.socket.value.sends == c.peers[0].sends
      && r.1.socket.value.sent == []
    ensures !r.0.isSucceed ==>
      && r.0.errCode == ConnectErrCode && r.0.exception.Some?
      && r.0.err == Some(Message(r.0.exception.value)) && r.0.errList == [r.0.err]
      && r.1.socket.value.disposed
    ensures r.1.released == c.released + Released(c.socket)
    ensures r.1.isAutoOpen == c.isAutoOpen && r.1.timeout == c.timeout
    ensures r.1.peers == if c.timeout < -1 || |c.peers| == 0 then c.peers else c.peers[1..]
  {
    var result := New(now);
    var c1 := c.(released := c.released + Released(c.socket));
    if c.timeout < -1 then ConnectFailed(result, BadTimeout, c1, now)
    else if |c.peers| == 0 then ConnectFailed(result, ConnectTimeout, c1, now)
    else
      var c2 := c1.(peers := c.peers[1..]);
      match c.peers[0]
      case Accept(inbox, sends) => (EndTime(result, now), c2.(socket := Some(Socket(true, false, inbox, sends, []))))
      case NoAnswer => ConnectFailed(result, ConnectTimeout, c2, now)
      case Refuse(f) => ConnectFailed(result, SocketEx(f), c2, now)
  }

  /** Open: the caller takes over the connection's lifetime. */
  function Open(c: Client, now: int): (r: (Responce, Client))
    ensures !r.1.isAutoOpen
    ensures r.0.isSucceed <==> Connected(r.1)
    ensures r.0.isSucceed <==> c.timeout >= -1 && |c.peers| > 0 && c.peers[0].Accept?
    ensures !r.0.isSucceed ==> r.0.errCode == ConnectErrCode
    ensures r.1.released == c.released + Released(c.socket)
  {
    Connect(c.(isAutoOpen := false), now)
  }

  /** Close: hands the connection back to on-demand opening and closes the
      socket, which stays in the field. It cannot fail. */
  function Close(c: Client, now: int): (r: (Responce, Client))
    ensures r.0 == New(now)
    ensures r.1.isAutoOpen && !Connected(r.1)
    ensures r.1.socket.Some? <==> c.socket.Some?
    ensures r.1.socket.Some? ==> r.1.socket.value.disposed && r.1.socket.value.inbox == c.socket.value.inbox
    ensures r.1.peers == c.peers && r.1.released == c.released && r.1.timeout == c.timeout
  {
    var c1 := c.(isAutoOpen := true);
    var closed := if c1.socket.Some? then Some(SafeClose(c1.socket.value)) else None;
    (New(now), c1.(socket := closed))
  }

  /** Closing twice is the same as closing once. */
  lemma CloseIdempotent(c: Client, now: int, later: int)
    ensures Close(Close(c, now).1, later).1 == Close(c, now).1
    ensures Close(Close(c, now).1, later).0.isSucceed
  {
  }

  // ---- Exchanges ----

  /** The length field of a response header, bytes 7 and 8, low byte first. */
  function ContentLength(header: Bytes): (r: nat)
    requires |header| >= HeaderSize
    ensures r < 0x1_0000
  {
    header[7] as nat + 256 * header[8] as nat
  }

  /** Writing a 16-bit length into bytes 7 and 8 of a header, low byte
      first, is read back unchanged; the other bytes play no part. */
  lemma ContentLengthRoundTrip(header: Bytes, len: nat)
    requires |header| >= HeaderSize && len < 0x1_0000
    ensures ContentLength(header[7 := (len % 256) as byte][8 := (len / 256) as byte]) == len
    ensures forall h: Bytes :: |h| == |header| && h[7] == header[7] && h[8] == header[8] ==>
      ContentLength(h) == ContentLength(header)
  {
  }

  /** A complete frame: a header followed by exactly as many bytes as its
      length field says. */
  predicate IsFrame(v: Bytes)
  {
    |v| >= HeaderSize && |v| == HeaderSize + ContentLength(v)
  }

  /** The stream begins with a complete frame. */
  predicate HasFrame(stream: Bytes)
  {
    |stream| >= HeaderSize && |stream| >= HeaderSize + ContentLength(stream)
  }

  /** The catch block of SendPackageSingle: the exception's message is
      recorded (the exception itself is not) and the time is stamped. */
  function Caught(result: Reply, e: Exn, now: int): (t: Reply)
    requires Valid(result.base)
    ensures !Ok(t) && t.base.err == Some(Message(e)) && Valid(t.base)
    ensures t.base.exception == result.base.exception && t.value == result.value
  {
    TypedEndTime(result.(base := MarkFailed(result.base, Message(e))), now)
  }

  /** SendPackageSingle: send the command, read the 9-byte header, read the
      body its length field announces, return header and body together.
      No retry, and every exception is caught. */
  function SendPackageSingle(c: Client, command: Bytes, now: int): (r: (Reply, Client))
    ensures Valid(r.0.base)
    ensures Ok(r.0) ==> r.0.value.Some? && IsFrame(r.0.value.value)
    ensures !Ok(r.0) ==> r.0.base.err.Some?
    ensures SameSetting(c, r.1)
  {
    var result := NewReply(now);
    var (e, s) := Send(c.socket, command);
    var c1 := c.(socket := s);
    if e.Some? then (Caught(result, e.value, now), c1)
    else
      var (h, s1) := ReadSpec(s.value, HeaderSize, now);
      var c2 := c1.(socket := Some(s1));
      match h
      case Threw(_) =>
        // A read after a successful send meets an open socket, which
        // cannot throw DisposedSocket.
        assert false; (result, c2)
      case Returned(head) =>
        if !Ok(head) then (head, c2)
        else
          var header := head.value.value;
          var (b, s2) := ReadSpec(s1, ContentLength(header), now);
          var c3 := c2.(socket := Some(s2));
          match b
          case Threw(_) =>
            assert false; (result, c3)
          case Returned(body) =>
            if !Ok(body) then (body, c3)
            else (TypedEndTime(result.(value := Some(header + body.value.value)), now), c3)
  }

  lemma PrefixThenPrefix(s: Bytes, a: nat, b: nat)
    requires a <= |s| && b <= |s| - a
    ensures s[..a] + s[a..][..b] == s[..a + b]
  {
  }

  /** SendPackageSingle succeeds exactly when the send goes through and the
      peer makes a complete frame available, and it then returns that frame:
      the first bytes of the stream. */
  lemma SingleReadsFrame(c: Client, command: Bytes, now: int)
    ensures var r := SendPackageSingle(c, command, now).0;
      Ok(r) <==> SendSucceeds(c.socket) && HasFrame(Available(c.socket.value.inbox))
    ensures var r := SendPackageSingle(c, command, now).0;
      Ok(r) ==>
        var stream := Available(c.socket.value.inbox);
        r.value == Some(stream[..HeaderSize + ContentLength(stream)])
    ensures var r := SendPackageSingle(c, command, now).0;
      SendSucceeds(c.socket) && !Ok(r) ==>
        var stop := StopOf(c.socket.value.inbox);
        && r.base.err == Some(StopMessage(stop))
        && r.base.exception == (if stop.Faulted? then Some(SocketEx(stop.fault)) else None)
        && r.base.timeConsuming == None
    ensures var r := SendPackageSingle(c, command, now).0;
      !SendSucceeds(c.socket) ==>
        && r.base.err == Some(Message(Send(c.socket, command).0.value))
        && r.base.exception == None
        && r.base.timeConsuming == Some(0)
  {
    if SendSucceeds(c.socket) {
      var (e, s) := Send(c.socket, command);
      var stream := Available(c.socket.value.inbox);
      ReadSpecStream(s.value, HeaderSize, now);
      var (h, s1) := ReadSpec(s.value, HeaderSize, now);
      if Ok(h.value) {
        var header := h.value.value.value;
        assert header == stream[..HeaderSize];
        assert ContentLength(header) == ContentLength(stream);
        ReadSpecStream(s1, ContentLength(header), now);
        var (b, s2) := ReadSpec(s1, ContentLength(header), now);
        if Ok(b.value) {
          assert Available(s1.inbox) == stream[HeaderSize..];
          assert ContentLength(header) <= |stream[HeaderSize..]|;
          PrefixThenPrefix(stream, HeaderSize, ContentLength(header));
        }
      }
    }
  }

  /** The local function GetResponce of SendPackage: send the command and
      read exactly receiveCount bytes. Its exceptions escape. */
  function GetResponce(c: Client, command: Bytes, receiveCount: int, now: int): (r: (Outcome<Reply>, Client))
    ensures r.0.Returned? ==> Valid(r.0.value.base)
    ensures r.0.Returned? && Ok(r.0.value) ==>
      r.0.value.value.Some? && |r.0.value.value.value| == receiveCount
    ensures r.0.Returned? && !Ok(r.0.value) ==> r.0.value.base.err.Some?
    ensures SameSetting(c, r.1)
  {
    var result := NewReply(now);
    var (e, s) := Send(c.socket, command);
    var c1 := c.(socket := s);
    if e.Some? then (Threw(e.value), c1)
    else
      var (o, s1) := ReadSpec(s.value, receiveCount, now);
      var c2 := c1.(socket := Some(s1));
      match o
      case Threw(x) => (Threw(x), c2)
      case Returned(read) =>
        if !Ok(read) then (o, c2)
        else (Returned(TypedEndTime(result.(value := read.value), now)), c2)
  }

  /** GetResponce throws exactly when the send fails; otherwise it succeeds
      exactly when the peer makes receiveCount bytes available, and returns
      the first receiveCount bytes of the stream. */
  lemma GetResponceReads(c: Client, command: Bytes, receiveCount: int, now: int)
    ensures GetResponce(c, command, receiveCount, now).0.Threw? <==> !SendSucceeds(c.socket)
    ensures var r := GetResponce(c, command, receiveCount, now).0;
      SendSucceeds(c.socket) ==> (Ok(r.value) <==> 0 <= receiveCount <= |Available(c.socket.value.inbox)|)
    ensures var r := GetResponce(c, command, receiveCount, now).0;
      SendSucceeds(c.socket) && Ok(r.value) ==> r.value.value == Some(Available(c.socket.value.inbox)[..receiveCount])
  {
    if SendSucceeds(c.socket) && receiveCount >= 0 {
      var (e, s) := Send(c.socket, command);
      ReadSpecStream(s.value, receiveCount, now);
    }
  }

  /** What an exchange did, in order: an attempt at the exchange, or a
      reconnect. */
  datatype Call = Attempt | Reconnect

  function Count(log: seq<Call>, call: Call): nat
  {
    if |log| == 0 then 0 else (if log[0] == call then 1 else 0) + Count(log[1..], call)
  }

  /** The outcome of a public exchange, the client afterwards, and the log. */
  datatype Exchange = Exchange(outcome: Outcome<Reply>, client: Client, log: seq<Call>)

  /** The failure a failed reconnect turns into. */
  function ReconnectFailed(conn: Responce, now: int): (t: Reply)
    requires !conn.isSucceed
    ensures !Ok(t) && t.value == None
    ensures t.base.errCode == conn.errCode && t.base.err == conn.err && t.base.exception == conn.exception
    ensures Valid(t.base)
  {
    FromResponce(conn, now)
  }

  /** The catch block of SendPackage: reconnect once and attempt once more;
      an exception from that attempt escapes. */
  function Recover(c: Client, command: Bytes, receiveCount: int, now: int, log: seq<Call>): (x: Exchange)
    ensures x.log == log + [Reconnect] || x.log == log + [Reconnect, Attempt]
    ensures x.log == log + [Reconnect] ==>
      x.outcome.Returned? && !Ok(x.outcome.value) && x.outcome.value.base.errCode == ConnectErrCode
      && !Connected(x.client)
    ensures x.outcome.Returned? ==> Valid(x.outcome.value.base)
    ensures x.outcome.Returned? && Ok(x.outcome.value) ==>
      x.outcome.value.value.Some? && |x.outcome.value.value.value| == receiveCount
  {
    var (conn, c1) := Connect(c, now);
    if !conn.isSucceed then Exchange(Returned(ReconnectFailed(conn, now)), c1, log + [Reconnect])
    else
      var (retry, c2) := GetResponce(c1, command, receiveCount, now);
      Exchange(retry, c2, log + [Reconnect, Attempt])
  }

  /** The branch of SendPackage after a first attempt that returned a
      failure, as written: reconnect and retry inside the try block, so an
      exception from the retry runs the catch block as well. */
  function RetryInTry(c: Client, command: Bytes, receiveCount: int, now: int): (x: Exchange)
    ensures || x.log == [Attempt, Reconnect]
            || x.log == [Attempt, Reconnect, Attempt]
            || x.log == [Attempt, Reconnect, Attempt, Reconnect]
            || x.log == [Attempt, Reconnect, Attempt, Reconnect, Attempt]
    ensures x.outcome.Returned? ==> Valid(x.outcome.value.base)
    ensures x.outcome.Returned? && Ok(x.outcome.value) ==>
      x.outcome.value.value.Some? && |x.outcome.value.value.value| == receiveCount
  {
    var (conn, c1) := Connect(c, now);
    if !conn.isSucceed then Exchange(Returned(ReconnectFailed(conn, now)), c1, [Attempt, Reconnect])
    else
      var (retry, c2) := GetResponce(c1, command, receiveCount, now);
      if retry.Returned? then Exchange(retry, c2, [Attempt, Reconnect, Attempt])
      else Recover(c2, command, receiveCount, now, [Attempt, Reconnect, Attempt])
  }

  /** SendPackage as written: the retry after a failed first attempt sits
      inside the try block, so an exception from it runs the catch block,
      which reconnects and attempts once more. */
  function SendPackage(c: Client, command: Bytes, receiveCount: int, now: int): (x: Exchange)
    ensures || x.log == [Attempt]
            || x.log == [Attempt, Reconnect]
            || x.log == [Attempt, Reconnect, Attempt]
            || x.log == [Attempt, Reconnect, Attempt, Reconnect]
            || x.log == [Attempt, Reconnect, Attempt, Reconnect, Attempt]
    ensures var first := GetResponce(c, command, receiveCount, now).0;
      x.log == [Attempt] <==> first.Returned? && Ok(first.value)
    ensures (x.log == [Attempt, Reconnect] || x.log == [Attempt, Reconnect, Attempt, Reconnect]) ==>
      x.outcome.Returned? && !Ok(x.outcome.value) && x.outcome.value.base.errCode == ConnectErrCode
      && !Connected(x.client)
    ensures x.outcome.Returned? ==> Valid(x.outcome.value.base)
    ensures x.outcome.Returned? && Ok(x.outcome.value) ==>
      x.outcome.value.value.Some? && |x.outcome.value.value.value| == receiveCount
  {
    var (first, c1) := GetResponce(c, command, receiveCount, now);
    match first
    case Returned(res) =>
      if Ok(res) then Exchange(first, c1, [Attempt])
      else RetryInTry(c1, command, receiveCount, now)
    case Threw(_) =>
      var x := Recover(c1, command, receiveCount, now, [Attempt]);
      assert x.log == [Attempt, Reconnect] || x.log == [Attempt, Reconnect, Attempt];
      x
  }

  /** Wherever the corrected SendPackage returns, the code as written
      returns the same exchange: the two differ only where the retry
      throws. */
  lemma SendPackageAgrees(c: Client, command: Bytes, receiveCount: int, now: int)
    ensures var x := SendPackageOnce(c, command, receiveCount, now);
      x.outcome.Returned? ==> SendPackage(c, command, receiveCount, now) == x
  {
  }

  /** SendPackage with the retry moved out of the try block, so that one
      call makes at most one reconnect and two attempts. */
  function SendPackageOnce(c: Client, command: Bytes, receiveCount: int, now: int): (x: Exchange)
    ensures x.log == [Attempt] || x.log == [Attempt, Reconnect] || x.log == [Attempt, Reconnect, Attempt]
    ensures var first := GetResponce(c, command, receiveCount, now).0;
      x.log == [Attempt] <==> first.Returned? && Ok(first.value)
    ensures x.log == [Attempt] ==> x.outcome == GetResponce(c, command, receiveCount, now).0
    ensures x.log == [Attempt, Reconnect] ==>
      x.outcome.Returned? && !Ok(x.outcome.value) && x.outcome.value.base.errCode == ConnectErrCode
      && !Connected(x.client)
    ensures x.outcome.Threw? ==> x.log == [Attempt, Reconnect, Attempt]
    ensures x.outcome.Returned? ==> Valid(x.outcome.value.base)
    ensures x.outcome.Returned? && Ok(x.outcome.value) ==>
      x.outcome.value.value.Some? && |x.outcome.value.value.value| == receiveCount
  {
    var (first, c1) := GetResponce(c, command, receiveCount, now);
    if first.Returned? && Ok(first.value) then Exchange(first, c1, [Attempt])
    else
      var x := Recover(c1, command, receiveCount, now, [Attempt]);
      assert x.log == [Attempt, Reconnect] || x.log == [Attempt, Reconnect, Attempt];
      x
  }

  /** SendPackageReliable: SendPackageSingle, and on failure one reconnect
      and one more SendPackageSingle. Neither ever throws, so the catch
      blocks of the source are never entered. */
  function SendPackageReliable(c: Client, command: Bytes, now: int): (x: Exchange)
    ensures x.outcome.Returned?
    ensures x.log == [Attempt] || x.log == [Attempt, Reconnect] || x.log == [Attempt, Reconnect, Attempt]
    ensures x.log == [Attempt] <==> Ok(SendPackageSingle(c, command, now).0)
    ensures x.log == [Attempt] ==> x.outcome.value == SendPackageSingle(c, command, now).0
    ensures x.log == [Attempt, Reconnect] ==>
      !Ok(x.outcome.value) && x.outcome.value.base.errCode == ConnectErrCode && !Connected(x.client)
    ensures Valid(x.outcome.value.base)
    ensures Ok(x.outcome.value) ==> x.outcome.value.value.Some? && IsFrame(x.outcome.value.value.value)
  {
    var (first, c1) := SendPackageSingle(c, command, now);
    if Ok(first) then Exchange(Returned(first), c1, [Attempt])
    else
      var (conn, c2) := Connect(c1, now);
      if !conn.isSucceed then Exchange(Returned(ReconnectFailed(conn, now)), c2, [Attempt, Reconnect])
      else
        var (retry, c3) := SendPackageSingle(c2, command, now);
        Exchange(Returned(retry), c3, [Attempt, Reconnect, Attempt])
  }

  /** The next connect attempt meets a peer that lets a send through. */
  predicate NextPeerTakes(c: Client)
  {
    && c.timeout >= -1 && |c.peers| > 0 && c.peers[0].Accept?
    && (|c.peers[0].sends| == 0 || c.peers[0].sends[0].Delivered?)
  }

  /** After a failed first attempt SendPackageReliable succeeds exactly when
      the next peer accepts the connection, takes the command and makes a
      complete frame available, which it then returns. */
  lemma ReliableRetry(c: Client, command: Bytes, now: int)
    requires !Ok(SendPackageSingle(c, command, now).0)
    ensures var r := SendPackageReliable(c, command, now).outcome.value;
      Ok(r) <==> NextPeerTakes(c) && HasFrame(Available(c.peers[0].inbox))
    ensures var r := SendPackageReliable(c, command, now).outcome.value;
      Ok(r) ==>
        var stream := Available(c.peers[0].inbox);
        r.value == Some(stream[..HeaderSize + ContentLength(stream)])
    ensures var r := SendPackageReliable(c, command, now).outcome.value;
      NextPeerTakes(c) && !Ok(r) ==> r.base.err == Some(StopMessage(StopOf(c.peers[0].inbox)))
  {
    var c1 := SendPackageSingle(c, command, now).1;
    var (conn, c2) := Connect(c1, now);
    if conn.isSucceed {
      SingleReadsFrame(c2, command, now);
    }
  }

  /** After a first attempt that fails or throws, the corrected SendPackage
      succeeds exactly when the next peer accepts the connection, takes the
      command and makes receiveCount bytes available, which it then returns. */
  lemma OnceRetry(c: Client, command: Bytes, receiveCount: int, now: int)
    requires var first := GetResponce(c, command, receiveCount, now).0; !(first.Returned? && Ok(first.value))
    ensures var o := SendPackageOnce(c, command, receiveCount, now).outcome;
      (o.Returned? && Ok(o.value)) <==> NextPeerTakes(c) && 0 <= receiveCount <= |Available(c.peers[0].inbox)|
    ensures var o := SendPackageOnce(c, command, receiveCount, now).outcome;
      o.Returned? && Ok(o.value) ==> o.value.value == Some(Available(c.peers[0].inbox)[..receiveCount])
    ensures var o := SendPackageOnce(c, command, receiveCount, now).outcome;
      NextPeerTakes(c) && 0 <= receiveCount && !(o.Returned? && Ok(o.value)) ==>
        o.Returned? && o.value.base.err == Some(StopMessage(StopOf(c.peers[0].inbox)))
    ensures var o := SendPackageOnce(c, command, receiveCount, now).outcome;
      NextPeerTakes(c) && receiveCount < 0 ==>
        o.Returned? && o.value.base.err == Some("Read length : " + IntToString(receiveCount))
  {
    var c1 := GetResponce(c, command, receiveCount, now).1;
    var (conn, c2) := Connect(c1, now);
    if conn.isSucceed {
      GetResponceReads(c2, command, receiveCount, now);
      if receiveCount >= 0 {
        ReadSpecStream(Send(c2.socket, command).1.value, receiveCount, now);
      }
    }
  }

  /** The logs of the corrected SendPackage and of SendPackageReliable hold
      at most two attempts and one reconnect. */
  lemma AtMostOneReconnect(c: Client, command: Bytes, receiveCount: int, now: int)
    ensures Count(SendPackageOnce(c, command, receiveCount, now).log, Attempt) <= 2
    ensures Count(SendPackageOnce(c, command, receiveCount, now).log, Reconnect) <= 1
    ensures Count(SendPackageReliable(c, command, now).log, Attempt) <= 2
    ensures Count(SendPackageReliable(c, command, now).log, Reconnect) <= 1
  {
    CountShort();
  }

  /** Every reconnect releases the socket it replaces, so on a client that
      already holds a socket the released sockets grow by exactly the number
      of reconnects in the log. */
  lemma ReconnectsReleaseSockets(c: Client, command: Bytes, receiveCount: int, now: int)
    requires c.socket.Some?
    ensures var x := SendPackageOnce(c, command, receiveCount, now);
      |x.client.released| == |c.released| + Count(x.log, Reconnect)
  {
    CountShort();
    var (first, c1) := GetResponce(c, command, receiveCount, now);
    assert c1.socket.Some? && c1.released == c.released;
    if !(first.Returned? && Ok(first.value)) {
      var (conn, c2) := Connect(c1, now);
      assert |c2.released| == |c.released| + 1;
      if conn.isSucceed {
        assert GetResponce(c2, command, receiveCount, now).1.released == c2.released;
      }
    }
  }

  /** The same accounting for the retrying sender that never throws. */
  lemma ReliableReconnectsReleaseSockets(c: Client, command: Bytes, now: int)
    requires c.socket.Some?
    ensures var x := SendPackageReliable(c, command, now);
      |x.client.released| == |c.released| + Count(x.log, Reconnect)
  {
    CountShort();
  }

  lemma CountShort()
    ensures Count([Attempt], Attempt) == 1 && Count([Attempt], Reconnect) == 0
    ensures Count([Attempt, Reconnect], Attempt) == 1 && Count([Attempt, Reconnect], Reconnect) == 1
    ensures Count([Attempt, Reconnect, Attempt], Attempt) == 2 && Count([Attempt, Reconnect, Attempt], Reconnect) == 1
  {
  }

  // ---- The retry bound of SendPackage, as written and corrected ----

  /** A peer that has hung up: the first read of the exchange gets zero
      bytes. */
  const HungUp := Socket(true, false, [Data([])], [], [])

  /** The first reconnect meets a peer that rejects the next send; the
      second one meets a peer that answers with one byte. */
  const FlakyPeers := [Accept([], [Rejected(SocketFault(ConnectionReset, "reset"))]), Accept([Data([7])], [])]

  const FlakyClient := Client(Some(HungUp), true, 1500, FlakyPeers, [])

  /** The inputs that take SendPackage to a third attempt: the current
      socket takes the command but its peer delivers fewer bytes than asked,
      the first reconnect meets a peer that rejects the next send, and the
      second reconnect is accepted. */
  predicate FlakyPath(c: Client, receiveCount: int)
  {
    && receiveCount > 0 && c.timeout >= -1
    && SendSucceeds(c.socket) && |Available(c.socket.value.inbox)| < receiveCount
    && |c.peers| >= 2 && c.peers[0].Accept? && c.peers[1].Accept?
    && |c.peers[0].sends| > 0 && c.peers[0].sends[0].Rejected?
  }

  lemma FlakyPathFirstAttempt(c: Client, command: Bytes, receiveCount: int, now: int)
    requires FlakyPath(c, receiveCount)
    ensures GetResponce(c, command, receiveCount, now).0.Returned?
    ensures !Ok(GetResponce(c, command, receiveCount, now).0.value)
  {
    GetResponceReads(c, command, receiveCount, now);
  }

  /** The first reconnect succeeds, the retry throws, and the reconnect in
      the catch block succeeds on the second peer. */
  lemma FlakyPathRetry(c: Client, command: Bytes, receiveCount: int, now: int)
    requires FlakyPath(c, receiveCount)
    ensures var c2 := Connect(GetResponce(c, command, receiveCount, now).1, now);
      && c2.0.isSucceed
      && GetResponce(c2.1, command, receiveCount, now).0.Threw?
      && Connect(GetResponce(c2.1, command, receiveCount, now).1, now).0.isSucceed
      && Connect(GetResponce(c2.1, command, receiveCount, now).1, now).1.socket.value.inbox == c.peers[1].inbox
      && Connect(GetResponce(c2.1, command, receiveCount, now).1, now).1.socket.value.sends == c.peers[1].sends
  {
    var c1 := GetResponce(c, command, receiveCount, now).1;
    var c2 := Connect(c1, now).1;
    GetResponceReads(c2, command, receiveCount, now);
    assert !SendSucceeds(c2.socket);
  }

  /** On such inputs SendPackage attempts three times and reconnects twice,
      and its outcome is that of the third attempt, on the second peer. The
      corrected version stops after two attempts and the retry's exception
      escapes. */
  lemma FlakyPathAttemptsThrice(c: Client, command: Bytes, receiveCount: int, now: int)
    requires FlakyPath(c, receiveCount)
    ensures SendPackage(c, command, receiveCount, now).log == [Attempt, Reconnect, Attempt, Reconnect, Attempt]
    ensures var log := SendPackage(c, command, receiveCount, now).log;
      Count(log, Attempt) == 3 && Count(log, Reconnect) == 2
    ensures var o := SendPackage(c, command, receiveCount, now).outcome;
      (o.Returned? && Ok(o.value)) <==> NextPeerTakes(c.(peers := c.peers[1..])) && receiveCount <= |Available(c.peers[1].inbox)|
    ensures var x := SendPackageOnce(c, command, receiveCount, now);
      x.log == [Attempt, Reconnect, Attempt] && x.outcome.Threw?
  {
    FlakyPathFirstAttempt(c, command, receiveCount, now);
    FlakyPathRetry(c, command, receiveCount, now);
    var c1 := GetResponce(c, command, receiveCount, now).1;
    var c2 := Connect(c1, now).1;
    var c3 := GetResponce(c2, command, receiveCount, now).1;
    var c4 := Connect(c3, now).1;
    GetResponceReads(c4, command, receiveCount, now);
    CountFive();
  }

  /** The concrete client, asked for one byte, is on such a path: its peer
      has hung up, the first reconnect meets a peer that resets the
      connection on the next send, and the second reconnect succeeds. */
  lemma FlakyClientOnPath()
    ensures FlakyPath(FlakyClient, 1)
  {
  }

  lemma CountFive()
    ensures Count([Attempt, Reconnect, Attempt, Reconnect, Attempt], Attempt) == 3
    ensures Count([Attempt, Reconnect, Attempt, Reconnect, Attempt], Reconnect) == 2
  {
  }
}
